=== FILE: README.md ===
# ai-pull, modelled in Dafny

`prina-cmd ai-pull` syncs a project with a remote "AI skills" repository. It clones the
repository into a scratch directory and replaces the project's `.ai` folder with the clone's.
It then upserts the text of the clone's `prompt.md` into the Cursor editor's SQLite store
(table `ItemTable`, key `aicontext.personalContext`). Finally it makes sure `.gitignore` ignores
`.ai`, deletes the scratch directory and exits.

This project models the decision logic of that run. All I/O results are inputs:

- `optional.dfy`: `Option`.
- `ignore_file.dfy` (`IgnoreFile`): the `.gitignore` stage. The test `/^\.ai\s*$/m` is modelled
  exactly. `^` and `$` break lines at the ECMAScript line terminators (LF, CR, U+2028, U+2029).
  `\s` is the ECMAScript white-space class. `\s*` may run across line breaks.
- `backup.dfy` (`Backup`): purging old `state.vscdb.backup.*` files and taking a new one.
  The store's directory is a set of names.
- `rules_store.dfy` (`RulesStore`): the rules stage. It covers reading the document, checking
  that the store exists, the backup, and the select / no-change / update / insert / read-back
  logic. The SQL engine is a `map<string, string>`. Engine behaviour is an oracle `DbFault`: the
  driver missing, open or a statement throwing, zero changed rows, no insert id, or another
  writer changing the key before the read-back.
- `file_copy.dfy` (`FileCopy`): `copyFileWithRetry`. The i-th attempt's outcome comes from an
  oracle `nat -> Attempt`.
- `tree_copy.dfy` (`TreeCopy`): `copyFolder` and `copyFolderRecursive`. The source
  is a tree of `Node`s. Each file-system call's error comes from an oracle `World` keyed by
  relative path. The target is the set of (path, content) pairs written.
- `pipeline.dfy` (`Pipeline`): stage order and exit code.

Consequences of the code that are easy to miss:

- `retries = 3` means at most three attempts in all, not three retries after the first.
- When retries run out, the last write error itself is reported. The "retried many times"
  error only appears when the copier is called with `retries <= 0`.
- An existing but empty `.gitignore` becomes `"\n.ai\n"`. `endsWith('\n')` is false for `""`.
- The stage does not make `.gitignore` hold exactly one `.ai` line. A file that already matches
  is left alone, even with several matching lines. Exactly one match is guaranteed only after
  the stage appends.
- "At most one backup" holds only when every old backup could be deleted.

## Model

| member | source | states |
|---|---|---|
| IgnoreFile.ScanAgreesWithPattern | src/ai-pull.js:485 | the line-by-line scan is true exactly when `/^\.ai\s*$/m` matches somewhere in the text |
| IgnoreFile.ContainsRule | src/ai-pull.js:485-487 | the stage's test answers exactly the regular expression's match |
| IgnoreFile.Ensure | src/ai-pull.js:483-502 | three cases. Absent file: `".ai\n"` is written. A line already matches: nothing is written. Otherwise what is written is the old text, then `"\n"` exactly when the old text does not end in `"\n"` (so `""` becomes `"\n.ai\n"`), then `".ai\n"`. Whatever is written matches the rule at exactly one place, the last line |
| IgnoreFile.AppendedMatchesOnce | src/ai-pull.js:487-493 | after appending to text without a match, the pattern matches at exactly one position, the appended line |
| IgnoreFile.MatchSurvivesInPrefix | src/ai-pull.js:489-492 | appending cannot create a match inside or across the old text: any other match was already there |
| IgnoreFile.EnsureIdempotent | src/ai-pull.js:485-497 | running the stage on the file it wrote writes nothing |
| IgnoreFile.IgnoreStage | src/ai-pull.js:478-506 | if no read or write throws, the file afterwards exists and matches the rule. A throwing write, or a throwing read of an existing file, leaves it exactly as it was. Otherwise, when the file lacks the rule, what is written is exactly `Ensure`'s text, so a changed file matches at exactly one place, its last line. Existing content is always a prefix of the result, and a file that already matches is never changed |
| Backup.BackupName | src/ai-pull.js:329 | the new backup's name has the `state.vscdb.backup.` prefix and is not the store file's name |
| Backup.BackupNamesDistinct | src/ai-pull.js:329 | runs at different timestamps take backups under different names |
| Backup.Housekeep | src/ai-pull.js:306-334 | names without the backup prefix are untouched. A failed listing changes nothing. Every old backup is gone unless its deletion failed. The new timestamped backup exists unless the copy failed |
| Backup.CleanHousekeepingLeavesOneBackup | src/ai-pull.js:312-330 | when every deletion and the copy succeed, the only backup left is the new one |
| Backup.TwoRunsLeaveOneBackup | src/ai-pull.js:312-330 | two clean runs leave exactly one backup, the second run's |
| Backup.StoreFileKept | src/ai-pull.js:313-321 | housekeeping never deletes the live `state.vscdb` |
| RulesStore.VerifyAsWritten | src/ai-pull.js:393-414 | the read-back as the code writes it confirms exactly when the value equals the document and is not empty. It reports "value empty" exactly when the row is gone or its value is the empty string |
| RulesStore.Verify | src/ai-pull.js:391-414 | the read-back as intended: confirmed exactly when the stored value equals the document, "empty" exactly when the row is gone |
| RulesStore.EmptyDocumentFalseAlarm | src/ai-pull.js:393 | an empty document stored correctly is confirmed by `Verify` but reported as a failure by `VerifyAsWritten` |
| RulesStore.UpsertRules | src/ai-pull.js:350-463 | no key other than `aicontext.personalContext` ever changes. The store is left as is, or the document is written under the key, or (only when another writer intervenes) the key holds that writer's value. An equal stored value means no change, and "no change" is reported only then, with the store untouched. Whatever the outcome reported, a missing driver, a failing open, an update of zero rows, an insert with no row id, or a select or write statement that throws leaves the store untouched. A missing driver and a failing open are reported as such. A re-read that throws comes after the write, so the document is stored and a database error is reported. A healthy engine inserts when the key is absent and updates when it holds other text. Update happens only over a different stored value, insert only when the key is absent. The stage runs the code's read-back (`AsWritten`): it is confirmed exactly when the key holds the document and the document is not empty, and an empty stored value is reported as "value empty". With `AsIntended` (the corrected check) confirmation is exactly "the key holds the document". A healthy engine leaves the document under the key and reports no-change, or updated/inserted with "value empty" for an empty document and confirmed otherwise |
| RulesStore.UpsertIdempotent | src/ai-pull.js:357-376 | after a healthy upsert, the same upsert again reports no change and leaves the store equal |
| RulesStore.RulesStage | src/ai-pull.js:283-475 | no key but the fixed one changes, and the store file is never removed. A missing or unreadable document, or a missing store file, changes nothing. With both present, housekeeping runs first: the directory is exactly what `Housekeep` leaves, and with clean file operations the only backup is the new one. The upsert then always runs, and a missing driver, failing open, rejected update or insert, or no-change outcome leaves the store as it was. Only backup names change in the directory. With a healthy engine the key ends up holding the document, and a write is reported confirmed, or "value empty" when the document is empty |
| FileCopy.RetryFrom | src/ai-pull.js:178-218 | with `retries <= 0`: fails immediately with no attempt. Otherwise it makes between 1 and `retries` attempts. Every attempt but the last was a busy/permission write error. Success exactly when the last attempt copied. A failure reports the last attempt's code, and that attempt was not retryable or was the last allowed one |
| FileCopy.CopyFileWithRetry | src/ai-pull.js:178-182 | with `retries > 0` it makes at most `retries` attempts and never reports the "retried many times" error |
| FileCopy.SucceedsIff | src/ai-pull.js:198-215 | the copy succeeds iff some attempt within the first `retries` copies cleanly and every earlier attempt was a busy/permission write error |
| FileCopy.ReadErrorNotRetried | src/ai-pull.js:198-200 | a read error on the first attempt ends the copy after that one attempt, with that error |
| TreeCopy.CopyEntries | src/ai-pull.js:123-169 | fan-in: failed iff at least one entry failed. The files written are exactly the union of what each entry wrote, so one entry's failure does not lose its siblings' files |
| TreeCopy.CopyFolderRecursive | src/ai-pull.js:107-173 | a listing error is passed up as is. An empty directory completes with no error. Otherwise the single aggregated error is reported iff at least one entry failed |
| TreeCopy.CopyFolder | src/ai-pull.js:84-102 | a missing source reports an error. A target that cannot be created reports that error and copies nothing. A source that is a file fails and copies nothing. Otherwise, once the target is created, it is the recursive copy of the listing |
| TreeCopy.FolderCopy | src/ai-pull.js:107-173 | a folder copy reports no error iff the listing and every stat, mkdir, listing and file copy below it succeed, at any depth. It writes only source files to their own relative paths with their own content. With no error it has written every source file |
| TreeCopy.EntryCopy | src/ai-pull.js:127-158 | one entry copies without failure iff every call for it and below it succeeds. It writes a subset of its files, and all of them when it does not fail |
| TreeCopy.EntriesCopy | src/ai-pull.js:123-169 | the same for a directory's whole listing |
| TreeCopy.EmptyFolderCopies | src/ai-pull.js:118-121 | an empty source folder copies with no error and writes nothing |
| TreeCopy.Overlay | src/ai-pull.js:196 | every copied file is present afterwards. A leftover file stays exactly when no copied file has its path |
| Pipeline.InstallAi | src/ai-pull.js:240-275 | no `.ai` in the clone: the project's folder is untouched and the run goes on. Otherwise the stage's error is the folder copy's error. The folder holds every copied file, and nothing but copied files and old files. An old file stays exactly when `deleteDir` left it and no copied file has its path. The folder holds only old files and files of the clone's `.ai`. When the copy succeeds, every file of the clone's `.ai` tree is in the folder with its path and content, and with nothing left behind the folder is exactly that tree |
| Pipeline.RunPipeline | src/ai-pull.js:220-516 | exit code 1 iff the clone fails or the `.ai` copy fails, otherwise 0. Exit 0 iff all four stages ran in order. On exit 1 the store, its directory and `.gitignore` are untouched. The store file survives, and no key but the fixed one changes. Exit 0 without ignore-file I/O errors leaves `.gitignore` matching the rule. With no `.ai` in the clone the project's folder is untouched. On exit 0 with an `.ai` in the clone, that `.ai` is a directory and every file in its tree is installed at its path with its content, alongside only old files. With nothing left behind by `deleteDir`, the folder is exactly the clone's tree. When the copy fails, the folder is what the failed install left (old leftovers plus the files copied so far). An existing `.gitignore` is only ever appended to, and one that already matches is unchanged. On exit 0 with a document and the store file present and clean housekeeping, the only backup is this run's |
| Pipeline.TwoCleanRunsLeaveOneBackup | src/ai-pull.js:306-334 | two successful runs with clean housekeeping leave exactly one backup of the store, the second run's |
| Pipeline.RulesOutcomeNotFatal | src/ai-pull.js:283-475 | whatever the document, the store engine and the backup do, the exit code and the stages run are the same |
| Pipeline.SecondRunChangesNothing | src/ai-pull.js:370-376 | after a successful run with a healthy store, the key holds the document, and a second identical run leaves the store and `.gitignore` unchanged |

## Left out

- `git clone` through `execSync` is an external process and network access. Its success is the
  input `Env.cloneSucceeds`.
- Timers are not modelled: the 300 ms settle in `deleteDir` and the 100 ms retry backoff.
  Neither is console output, `process.exit`, or the scratch-directory cleanup before exit,
  which only deletes the clone.
- `Date.now()` is the input `ts`. The OS-specific `CURSOR_DB_PATH` is represented only by its
  base name `state.vscdb`.
- The SQLite engine and the `better-sqlite3` module are replaced by a map and `DbFault`. SQL
  `NULL` values and Buffer/UTF-8 decoding are not modelled: stored values are text.
- `deleteDir` (src/ai-pull.js:26-79) is not modelled. Its traversal and its swallowed errors,
  including a stat error that abandons the rest of a directory, are summed up by an input: the
  set of paths `Env.locked` whose files it leaves behind.
- A stream that fails part-way may leave a partial file behind. The model records only files
  whose copy succeeded.
- FileCopy.RetryFrom: each attempt is modelled as signalling its callback exactly once. In
  Node.js a file write stream emits `'close'` after `'error'`, so after a write error the code
  at src/ai-pull.js:213-215 also calls the callback with no error. That can happen after a retry
  was scheduled, or after the error was reported. Stream event ordering is not modelled.
- FileCopy.SucceedsIff: describes the same single-signal reading of `copyFileWithRetry`. A busy
  write that the code retries can also be reported early as success by the extra `'close'`.
- TreeCopy.CopyFolderRecursive: counts one completion per entry. The counter at
  src/ai-pull.js:137-165 goes up by one per callback, so the directory's callback still fires
  once. Extra `'close'` callbacks can make it fire early, before the remaining entries finish.
  Errors reported after that point are lost, so a failed copy can end with exit code 0.
- Synchronous exceptions inside the clone stage's `try` other than the clone's own are not
  modelled (they would also exit 1).
- `bin/command.js` is a `commander` dispatcher plus version and help printing, with no logic of
  its own.
- IgnoreFile.Ensure: `.gitignore` is read as UTF-8 and the decoded text is written back. Bytes
  that are not valid UTF-8 come back as U+FFFD. "The old content is a prefix" holds for the
  decoded text, not for the file's bytes.
- IgnoreFile.IgnoreStage: the same decoding applies. A `writeFileSync` that fails after opening
  the file (for instance ENOSPC) has already truncated it. The model treats every failed write
  as leaving the file unchanged.
- RulesStore.UpsertRules: a `NoInsertId` insert is assumed to write nothing. The code only
  reports it and moves on.

## Findings

| source | as written | input that shows it | evidently intended | confidence | as-written member | corrected member |
|---|---|---|---|---|---|---|
| src/ai-pull.js:393 (also 431) | the read-back tests `verifyRow && verifyRow.value`, and an empty string is falsy | `prompt.md` is empty and the key held other text (or was absent). The update stores `""` and the read-back reports "值为空" (value is empty) | a stored value equal to the document is confirmed | medium, not executed | RulesStore.VerifyAsWritten | RulesStore.Verify |

The run model keeps the code's behaviour. `RulesStore.RulesStage` calls `UpsertRules` with
`AsWritten`. `EmptyDocumentFalseAlarm` shows the discrepancy. The corrected stage is
`UpsertRules` with `AsIntended`, whose read-back is confirmed exactly when the key holds the
document.

=== FILE: backup.dfy ===
/**
 Backup housekeeping before the rules store is changed: every earlier backup of the store file
 is deleted (each deletion may fail silently), then one new timestamped copy is taken. The
 store's directory is modelled as the set of names in it.
 */
module Backup {

  /** Base name of the editor's key-value store file. */
  const DbFileName: string := "state.vscdb"
  /** Every backup name starts with this. */
  const BackupPrefix: string := DbFileName + ".backup."

  predicate IsBackup(name: string) {
    BackupPrefix <= name
  }

  function Backups(dir: set<string>): set<string> {
    set f | f in dir && IsBackup(f)
  }

  /** Decimal digits of n, as `Date.now()` is printed when concatenated to a string. */
  function Digits(n: nat): (d: string)
    ensures |d| >= 1 && forall i :: 0 <= i < |d| ==> '0' <= d[i] <= '9'
  {
    var last := ['0' + ((n % 10) as char)];
    if n < 10 then last else Digits(n / 10) + last
  }

  /** The name of the backup taken at timestamp ts. */
  function BackupName(ts: nat): (name: string)
    ensures IsBackup(name) && name != DbFileName
  {
    BackupPrefix + Digits(ts)
  }

  lemma {:induction false} DigitsInjective(n: nat, m: nat)
    requires Digits(n) == Digits(m)
    ensures n == m
    decreases n
  {
    var d := Digits(n);
    assert d[|d| - 1] == '0' + ((n % 10) as char) && d[|d| - 1] == '0' + ((m % 10) as char);
    if n >= 10 && m >= 10 {
      assert Digits(n / 10) == d[..|d| - 1] == Digits(m / 10);
      DigitsInjective(n / 10, m / 10);
    }
  }

  /** Runs at different timestamps take backups under different names. */
  lemma BackupNamesDistinct(ts1: nat, ts2: nat)
    requires ts1 != ts2
    ensures BackupName(ts1) != BackupName(ts2)
  {
    if BackupName(ts1) == BackupName(ts2) {
      assert Digits(ts1) == BackupName(ts1)[|BackupPrefix|..] == BackupName(ts2)[|BackupPrefix|..] == Digits(ts2);
      DigitsInjective(ts1, ts2);
    }
  }

  /**
   Outcomes of the housekeeping's file operations: listing the directory may throw (then
   nothing happens), some old backups may refuse deletion, and the copy may throw.
   */
  datatype BackupIo = BackupIo(listFails: bool, undeletable: set<string>, copyFails: bool)

  const Clean := BackupIo(false, {}, false)

  /** The directory after housekeeping at timestamp ts. */
  function Housekeep(dir: set<string>, ts: nat, io: BackupIo): (r: set<string>)
    ensures forall f :: !IsBackup(f) ==> (f in r <==> f in dir)
    ensures io.listFails ==> r == dir
    ensures forall f :: f != BackupName(ts) ==> (f in r <==> f in dir && (!IsBackup(f) || io.listFails || f in io.undeletable))
    ensures !io.listFails && !io.copyFails ==> BackupName(ts) in r
    ensures !io.listFails && io.copyFails ==> (BackupName(ts) in r <==> BackupName(ts) in dir * io.undeletable)
  {
    if io.listFails then dir
    else
      var kept := dir - (Backups(dir) - io.undeletable);
      if io.copyFails then kept else kept + {BackupName(ts)}
  }

  /** When every deletion and the copy succeed, exactly one backup is left: the new one. */
  lemma CleanHousekeepingLeavesOneBackup(dir: set<string>, ts: nat)
    ensures Backups(Housekeep(dir, ts, Clean)) == {BackupName(ts)}
  {
  }

  /** Two clean runs in a row leave only the second run's backup, never two. */
  lemma TwoRunsLeaveOneBackup(dir: set<string>, ts1: nat, ts2: nat)
    ensures var r := Housekeep(Housekeep(dir, ts1, Clean), ts2, Clean);
      Backups(r) == {BackupName(ts2)} && |Backups(r)| == 1
  {
  }

  /** Housekeeping never removes the live store file. */
  lemma StoreFileKept(dir: set<string>, ts: nat, io: BackupIo)
    ensures DbFileName in Housekeep(dir, ts, io) <==> DbFileName in dir
  {
  }
}

=== FILE: file_copy.dfy ===
/**
 Copying one file with bounded retries (`copyFileWithRetry`). What each attempt's streams
 report is an oracle: `outcome(i)` is the result of the i-th attempt, counting from 0.
 */
module FileCopy {
  import opened Optional

  /** The `code` of a Node.js file-system error. */
  datatype ErrorCode = EBUSY | EPERM | EACCES | Other(name: string)

  /**
   Codes the copier treats as passing contention (busy, permission). The code compares names,
   so `Other` with one of the three names counts too.
   */
  predicate Transient(code: ErrorCode) {
    || code.EBUSY? || code.EPERM? || code.EACCES?
    || (code.Other? && code.name in {"EBUSY", "EPERM", "EACCES"})
  }

  datatype CopyError =
      /** The source directory does not exist. */
    | SourceMissing
      /** A file-system call failed with this code. */
    | Io(code: ErrorCode)
      /** The copier was called with no attempts left. */
    | RetriesExhausted
      /** Some entries of a directory failed to copy. */
    | PartialCopy

  /** What one attempt observes. */
  datatype Attempt =
    | Copied
      /** Creating the destination's parent directory throws. */
    | ParentFails(code: ErrorCode)
      /** The read stream reports an error. */
    | ReadFails(code: ErrorCode)
      /** The write stream reports an error. */
    | WriteFails(code: ErrorCode)

  predicate Retryable(a: Attempt) {
    a.WriteFails? && Transient(a.code)
  }

  /** The number of tries the tree copier grants each file. */
  const FileRetries: int := 3

  /** The result of a copy and how many attempts it made in all. */
  datatype CopyRun = CopyRun(error: Option<CopyError>, attempts: nat)

  /** `copyFileWithRetry(src, dst, retries, cb)` after `made` earlier attempts. */
  function RetryFrom(retries: int, outcome: nat -> Attempt, made: nat): (r: CopyRun)
    ensures retries <= 0 ==> r == CopyRun(Some(RetriesExhausted), made)
    ensures retries > 0 ==> made < r.attempts <= made + retries
    ensures retries > 0 ==> forall i :: made <= i < r.attempts - 1 ==> Retryable(outcome(i))
    ensures retries > 0 ==> (r.error.None? <==> outcome(r.attempts - 1) == Copied)
    ensures retries > 0 && r.error.Some? ==>
      && r.error.value.Io?
      && (outcome(r.attempts - 1) == ReadFails(r.error.value.code)
          || outcome(r.attempts - 1) == WriteFails(r.error.value.code)
          || outcome(r.attempts - 1) == ParentFails(r.error.value.code))
      && (!Retryable(outcome(r.attempts - 1)) || r.attempts == made + retries)
    decreases retries
  {
    if retries <= 0 then CopyRun(Some(RetriesExhausted), made)
    else
      match outcome(made)
      case Copied => CopyRun(None, made + 1)
      case ParentFails(code) => CopyRun(Some(Io(code)), made + 1)
      case ReadFails(code) => CopyRun(Some(Io(code)), made + 1)
      case WriteFails(code) =>
        if retries > 1 && Transient(code) then RetryFrom(retries - 1, outcome, made + 1)
        else CopyRun(Some(Io(code)), made + 1)
  }

  function CopyFileWithRetry(retries: int, outcome: nat -> Attempt): (r: CopyRun)
    ensures retries <= 0 ==> r == CopyRun(Some(RetriesExhausted), 0)
    ensures retries > 0 ==> 1 <= r.attempts <= retries && r.error != Some(RetriesExhausted)
  {
    RetryFrom(retries, outcome, 0)
  }

  /** A read error is never retried: the first one ends the copy. */
  lemma ReadErrorNotRetried(retries: int, outcome: nat -> Attempt, code: ErrorCode)
    requires retries > 0 && outcome(0) == ReadFails(code)
    ensures CopyFileWithRetry(retries, outcome) == CopyRun(Some(Io(code)), 1)
  {
  }

  /** The copy succeeds exactly when, within the allowed tries, a run of busy/permission write errors ends in a clean copy. */
  lemma SucceedsIff(retries: int, outcome: nat -> Attempt, made: nat)
    ensures RetryFrom(retries, outcome, made).error.None? <==>
      exists n :: made <= n < made + retries && outcome(n) == Copied
        && forall i :: made <= i < n ==> Retryable(outcome(i))
  {
  }
}

=== FILE: ignore_file.dfy ===
/**
 The ignore-file stage of `ai-pull`: make sure the project's `.gitignore` holds a rule for the
 `.ai` folder. The test the stage performs is the multiline regular expression `^\.ai\s*$`,
 modelled here with ECMAScript's meaning of `^`, `$` and `\s`.
 */
module IgnoreFile {
  import opened Optional

  /** The rule the stage looks for and appends. */
  const Rule: string := ".ai"
  /** The text appended (or written to a new file): the rule and a line break. */
  const RuleLine: string := ".ai\n"

  /** ECMAScript line terminators: they delimit lines for `^` and `$` in multiline mode. */
  predicate IsLineTerminator(c: char) {
    c == '\n' || c == '\r' || c == '\U{2028}' || c == '\U{2029}'
  }

  /** ECMAScript `\s`: white space and line terminators. */
  predicate IsSpace(c: char) {
    || c == '\t' || c == '\U{000B}' || c == '\U{000C}' || c == ' '
    || c == '\U{00A0}' || c == '\U{1680}' || ('\U{2000}' <= c <= '\U{200A}')
    || c == '\U{202F}' || c == '\U{205F}' || c == '\U{3000}' || c == '\U{FEFF}'
    || IsLineTerminator(c)
  }

  /** `^` in multiline mode: position p of s begins a line. */
  predicate LineStart(s: string, p: int) {
    p == 0 || (0 < p <= |s| && IsLineTerminator(s[p - 1]))
  }

  /** `$` in multiline mode: position e of s ends a line. */
  predicate LineEnd(s: string, e: int) {
    e == |s| || (0 <= e < |s| && IsLineTerminator(s[e]))
  }

  predicate AllSpace(s: string, i: int, j: int)
    requires 0 <= i <= j <= |s|
  {
    forall k :: i <= k < j ==> IsSpace(s[k])
  }

  /** `^\.ai\s*$` matches s at position p: `\s*` may take any run of white space, line breaks included. */
  ghost predicate MatchesAt(s: string, p: int) {
    && 0 <= p && p + |Rule| <= |s|
    && LineStart(s, p)
    && s[p..p + |Rule|] == Rule
    && exists e :: p + |Rule| <= e <= |s| && AllSpace(s, p + |Rule|, e) && LineEnd(s, e)
  }

  /** The regular expression's `test`: it matches somewhere in s. */
  ghost predicate HasRule(s: string) {
    exists p :: MatchesAt(s, p)
  }

  /** The first line break at or after i, or the end of s. */
  function NextBreak(s: string, i: nat): (e: nat)
    requires i <= |s|
    ensures i <= e <= |s| && LineEnd(s, e)
    ensures forall k :: i <= k < e ==> !IsLineTerminator(s[k])
    decreases |s| - i
  {
    if i == |s| || IsLineTerminator(s[i]) then i else NextBreak(s, i + 1)
  }

  /** A line (without its terminator) that is `.ai` followed only by white space. */
  predicate IsRuleLine(line: string) {
    Rule <= line && forall k :: |Rule| <= k < |line| ==> IsSpace(line[k])
  }

  /** Looks for a rule line among the lines of s starting at line start p. */
  function ScanLines(s: string, p: nat): bool
    requires p <= |s| && LineStart(s, p)
    decreases |s| - p
  {
    var e := NextBreak(s, p);
    if IsRuleLine(s[p..e]) then true
    else if e == |s| then false
    else ScanLines(s, e + 1)
  }

  lemma RuleCharacters(s: string, p: int)
    requires 0 <= p && p + |Rule| <= |s| && s[p..p + |Rule|] == Rule
    ensures s[p] == '.' && s[p + 1] == 'a' && s[p + 2] == 'i'
  {
  }

  lemma {:induction false} ScanFindsMatch(s: string, p: nat)
    requires p <= |s| && LineStart(s, p)
    requires ScanLines(s, p)
    ensures HasRule(s)
    decreases |s| - p
  {
    var e := NextBreak(s, p);
    var line := s[p..e];
    if IsRuleLine(line) {
      assert |line| >= |Rule| && line[..|Rule|] == Rule;
      assert s[p..p + |Rule|] == Rule;
      assert AllSpace(s, p + |Rule|, e) by {
        forall k | p + |Rule| <= k < e ensures IsSpace(s[k]) {
          assert s[k] == line[k - p];
        }
      }
      assert MatchesAt(s, p);
    } else {
      ScanFindsMatch(s, e + 1);
    }
  }

  lemma {:induction false} ScanReachesMatch(s: string, q: nat, p: int)
    requires q <= |s| && LineStart(s, q)
    requires q <= p && MatchesAt(s, p)
    ensures ScanLines(s, q)
    decreases |s| - q
  {
    var e := NextBreak(s, q);
    if q == p {
      var f :| p + |Rule| <= f <= |s| && AllSpace(s, p + |Rule|, f) && LineEnd(s, f);
      RuleCharacters(s, p);
      assert p + |Rule| <= e <= f;
      var line := s[q..e];
      forall k | |Rule| <= k < |line| ensures IsSpace(line[k]) {
        assert line[k] == s[q + k];
      }
      assert line[..|Rule|] == s[p..p + |Rule|];
      assert IsRuleLine(line);
    } else if !IsRuleLine(s[q..e]) {
      assert e < p;
      ScanReachesMatch(s, e + 1, p);
    }
  }

  /** The line-by-line scan answers exactly the regular expression's test. */
  lemma ScanAgreesWithPattern(s: string)
    ensures ScanLines(s, 0) <==> HasRule(s)
  {
    if ScanLines(s, 0) {
      ScanFindsMatch(s, 0);
    } else if HasRule(s) {
      var p :| MatchesAt(s, p);
      ScanReachesMatch(s, 0, p);
    }
  }

  /** The stage's regular-expression test, computed line by line. */
  function ContainsRule(s: string): (b: bool)
    ensures b <==> HasRule(s)
  {
    ScanAgreesWithPattern(s);
    ScanLines(s, 0)
  }

  /** What goes between old content and the appended rule: a line break unless one ends it already. */
  function Separator(content: string): string {
    if |content| > 0 && content[|content| - 1] == '\n' then "" else "\n"
  }

  function Appended(content: string): string {
    content + Separator(content) + RuleLine
  }

  lemma AppendedEndsWithRule(content: string)
    ensures var s := Appended(content); MatchesAt(s, |s| - |RuleLine|)
  {
    var s := Appended(content);
    var q := |s| - |RuleLine|;
    assert s[q..] == RuleLine;
    assert q > 0 && s[q - 1] == '\n';
    assert s[q..q + |Rule|] == Rule;
    assert AllSpace(s, q + |Rule|, q + |Rule|) && LineEnd(s, q + |Rule|);
  }

  /** A match in the appended text that is not the appended rule was already a match in the old text. */
  lemma MatchSurvivesInPrefix(content: string, p: int)
    requires MatchesAt(Appended(content), p)
    requires p != |Appended(content)| - |RuleLine|
    ensures MatchesAt(content, p)
  {
    var s := Appended(content);
    var n := |content|;
    var q := |s| - |RuleLine|;
    assert s[..n] == content;
    assert s[q] == '.' && s[q + 1] == 'a' && s[q + 2] == 'i' && s[q + 3] == '\n';
    assert s[n] == '\n' || (s[n] == '.' && q == n);
    RuleCharacters(s, p);
    assert p < q;
    assert p + |Rule| <= n;
    assert content[p..p + |Rule|] == s[p..p + |Rule|];
    assert LineStart(content, p);
    var e :| p + |Rule| <= e <= |s| && AllSpace(s, p + |Rule|, e) && LineEnd(s, e);
    var e' := if e <= n then e else n;
    assert AllSpace(content, p + |Rule|, e');
    assert LineEnd(content, e');
  }

  /** After appending, the rule is matched at exactly one place: the line just appended. */
  lemma AppendedMatchesOnce(content: string)
    requires !HasRule(content)
    ensures var s := Appended(content); forall p :: MatchesAt(s, p) <==> p == |s| - |RuleLine|
  {
    var s := Appended(content);
    AppendedEndsWithRule(content);
    forall p | MatchesAt(s, p) && p != |s| - |RuleLine| ensures MatchesAt(content, p) {
      MatchSurvivesInPrefix(content, p);
    }
  }

  /**
   The content the stage writes to `.gitignore`, or None when it writes nothing.
   `existing` is the file's content, None when the file does not exist.
   */
  function Ensure(existing: Option<string>): (w: Option<string>)
    ensures existing.None? ==> w == Some(RuleLine)
    ensures existing.Some? ==> (w.None? <==> HasRule(existing.value))
    ensures existing.Some? && w.Some? ==> existing.value <= w.value
    ensures existing.Some? && w.Some? ==>
      var added := w.value[|existing.value|..];
      added == (if existing.value != [] && existing.value[|existing.value| - 1] == '\n' then RuleLine else "\n" + RuleLine)
    ensures w.Some? ==> forall p :: MatchesAt(w.value, p) <==> p == |w.value| - |RuleLine|
  {
    match existing
    case None =>
      assert MatchesAt(RuleLine, 0) by {
        assert RuleLine[0..|Rule|] == Rule;
        assert AllSpace(RuleLine, |Rule|, |Rule|) && LineEnd(RuleLine, |Rule|);
      }
      assert RuleLine[0] == '.';
      Some(RuleLine)
    case Some(content) =>
      if ContainsRule(content) then None
      else
        AppendedMatchesOnce(content);
        var s := Appended(content);
        assert s[..|content|] == content;
        Some(s)
  }

  /** Running the stage on the file it produced writes nothing. */
  lemma EnsureIdempotent(existing: Option<string>)
    ensures var w := Ensure(existing);
      w.Some? ==> Ensure(w) == None
  {
    var w := Ensure(existing);
    if w.Some? {
      assert MatchesAt(w.value, |w.value| - |RuleLine|);
    }
  }

  /** Failures of the stage's own file I/O; each is caught and reported, and nothing is written. */
  datatype IgnoreIo = IgnoreIo(readFails: bool, writeFails: bool)

  /** The `.gitignore` after the stage; I/O failures leave it as it was. */
  function IgnoreStage(file: Option<string>, io: IgnoreIo): (after: Option<string>)
    ensures after == file || (after.Some? && HasRule(after.value))
    ensures !io.readFails && !io.writeFails ==> after.Some? && HasRule(after.value)
    ensures file.Some? && after.Some? ==> file.value <= after.value
    ensures file.Some? && HasRule(file.value) ==> after == file
    ensures io.writeFails || (file.Some? && io.readFails) ==> after == file
    ensures !io.writeFails && !(file.Some? && io.readFails) && Ensure(file).Some? ==> after == Ensure(file)
    ensures after != file ==> forall p :: MatchesAt(after.value, p) <==> p == |after.value| - |RuleLine|
  {
    if file.Some? && io.readFails then file
    else
      var w := Ensure(file);
      if w.None? || io.writeFails then file
      else
        assert MatchesAt(w.value, |w.value| - |RuleLine|);
        w
  }
}

=== FILE: optional.dfy ===
/** A value that may be absent: a file that may not exist, a row that may not be found. */
module Optional {

  datatype Option<+T> = None | Some(value: T)
}

=== FILE: pipeline.dfy ===
/**
 The `ai-pull` run: clone the repository, install its `.ai` folder, upsert the rules, ensure the
 ignore rule, clean up and exit. A clone or `.ai` copy failure stops the run with exit code 1;
 every outcome of the rules stage moves on to the ignore stage and exit code 0.
 */
module Pipeline {
  import opened Optional
  import opened TreeCopy
  import FileCopy
  import Backup
  import RulesStore
  import IgnoreFile

  /** What the clone of the remote repository holds. */
  datatype Snapshot = Snapshot(ai: Option<Node>, prompt: RulesStore.PromptFile)

  /** Everything the run observes from the outside world. */
  datatype Env = Env(
    cloneSucceeds: bool,
    snapshot: Snapshot,
    world: World,
    locked: set<Path>,
    ts: nat,
    backupIo: Backup.BackupIo,
    db: RulesStore.DbFault,
    ignoreIo: IgnoreFile.IgnoreIo)

  /** The state the run changes: the project's `.ai` folder and `.gitignore`, and the editor's store. */
  datatype Project = Project(
    ai: set<FileEntry>,
    gitignore: Option<string>,
    dbDir: set<string>,
    store: RulesStore.Store)

  datatype Stage = Sync | Install | Rules | Ignore

  const AllStages: seq<Stage> := [Sync, Install, Rules, Ignore]

  datatype Run = Run(exitCode: int, stages: seq<Stage>, project: Project)

  /**
   Installing the `.ai` folder: skipped with a warning when the clone has none; otherwise the
   project's copy is deleted and the clone's copied in. `deleteDir` is best effort: the files at
   `env.locked` are the ones it leaves behind. The result is the copy's error and the project's
   folder afterwards.
   */
  function InstallAi(env: Env, current: set<FileEntry>): (r: (Option<FileCopy.CopyError>, set<FileEntry>))
    ensures env.snapshot.ai.None? ==> r == (None, current)
    ensures env.snapshot.ai.Some? ==>
      var copied := CopyFolder(env.world, env.snapshot.ai).copied;
      && r.0 == CopyFolder(env.world, env.snapshot.ai).error
      && copied <= r.1
      && r.1 <= current + copied
      && (forall e :: e in r.1 && e !in copied ==> e.0 in env.locked && e.0 !in PathsOf(copied))
      && (forall e :: e in current && e.0 in env.locked && e.0 !in PathsOf(copied) ==> e in r.1)
    ensures env.snapshot.ai.Some? && env.locked == {} ==> r.1 == CopyFolder(env.world, env.snapshot.ai).copied
    ensures env.snapshot.ai.Some? && env.snapshot.ai.value.Dir? ==>
      r.1 <= current + Files([], env.snapshot.ai.value.children)
    ensures env.snapshot.ai.Some? && r.0.None? ==>
      && env.snapshot.ai.value.Dir?
      && Files([], env.snapshot.ai.value.children) <= r.1
      && (env.locked == {} ==> r.1 == Files([], env.snapshot.ai.value.children))
  {
    match env.snapshot.ai
    case None => (None, current)
    case Some(src) =>
      var run := CopyFolder(env.world, env.snapshot.ai);
      var leftovers := set e | e in current && e.0 in env.locked;
      var installed := Overlay(leftovers, run.copied);
      if src.Dir? then
        FolderCopy(env.world, [], src.children);
        (run.error, installed)
      else (run.error, installed)
  }

  /** A fatal failure: the installed copy could not be made. */
  predicate InstallFails(env: Env) {
    env.snapshot.ai.Some? && CopyFolder(env.world, env.snapshot.ai).error.Some?
  }

  function RunPipeline(env: Env, project: Project): (r: Run)
    ensures r.exitCode == 0 || r.exitCode == 1
    ensures r.exitCode == 1 <==> !env.cloneSucceeds || InstallFails(env)
    ensures r.exitCode == 0 <==> r.stages == AllStages
    ensures r.exitCode == 1 ==> r.stages == [Sync] || r.stages == [Sync, Install]
    ensures r.exitCode == 1 ==>
      r.project.gitignore == project.gitignore && r.project.store == project.store && r.project.dbDir == project.dbDir
    ensures !env.cloneSucceeds ==> r.project == project
    ensures env.snapshot.ai.None? ==> r.project.ai == project.ai
    ensures env.cloneSucceeds && InstallFails(env) ==> r.project.ai == InstallAi(env, project.ai).1
    ensures project.gitignore.Some? && r.project.gitignore.Some? ==>
      project.gitignore.value <= r.project.gitignore.value
    ensures project.gitignore.Some? && IgnoreFile.HasRule(project.gitignore.value) ==>
      r.project.gitignore == project.gitignore
    ensures (r.exitCode == 0 && env.snapshot.prompt.Present? && Backup.DbFileName in project.dbDir
             && env.backupIo == Backup.Clean) ==>
      Backup.Backups(r.project.dbDir) == {Backup.BackupName(env.ts)}
    ensures r.exitCode == 0 && env.snapshot.ai.Some? ==>
      && env.snapshot.ai.value.Dir?
      && Files([], env.snapshot.ai.value.children) <= r.project.ai
      && r.project.ai <= project.ai + Files([], env.snapshot.ai.value.children)
    ensures r.exitCode == 0 && env.snapshot.ai.Some? && env.locked == {} ==>
      r.project.ai == Files([], env.snapshot.ai.value.children)
    ensures r.project.store - {RulesStore.PersonalContextKey} == project.store - {RulesStore.PersonalContextKey}
    ensures (Backup.DbFileName in r.project.dbDir) == (Backup.DbFileName in project.dbDir)
    ensures r.exitCode == 0 && !env.ignoreIo.readFails && !env.ignoreIo.writeFails ==>
      r.project.gitignore.Some? && IgnoreFile.HasRule(r.project.gitignore.value)
  {
    if !env.cloneSucceeds then Run(1, [Sync], project)
    else
      var (err, ai) := InstallAi(env, project.ai);
      if err.Some? then Run(1, [Sync, Install], project.(ai := ai))
      else
        var rules := RulesStore.RulesStage(env.snapshot.prompt, project.dbDir, project.store,
                                           env.ts, env.backupIo, env.db);
        var gitignore := IgnoreFile.IgnoreStage(project.gitignore, env.ignoreIo);
        Run(0, AllStages, Project(ai, gitignore, rules.dbDir, rules.store))
  }

  /** The rules stage never decides the exit code: whatever the document and the store do, the run ends the same way. */
  lemma RulesOutcomeNotFatal(env: Env, project: Project, prompt: RulesStore.PromptFile,
                             db: RulesStore.DbFault, backupIo: Backup.BackupIo)
    ensures var other := env.(snapshot := env.snapshot.(prompt := prompt), db := db, backupIo := backupIo);
      && RunPipeline(other, project).exitCode == RunPipeline(env, project).exitCode
      && RunPipeline(other, project).stages == RunPipeline(env, project).stages
  {
  }

  /**
   A run that succeeds with the store present and healthy leaves the rules document under the
   key and the ignore rule in place, and an immediate second run changes neither.
   */
  lemma SecondRunChangesNothing(env: Env, project: Project)
    requires env.cloneSucceeds && !InstallFails(env)
    requires env.snapshot.prompt.Present? && Backup.DbFileName in project.dbDir
    requires env.db == RulesStore.Healthy && env.ignoreIo == IgnoreFile.IgnoreIo(false, false)
    ensures var once := RunPipeline(env, project).project;
      var twice := RunPipeline(env, once).project;
      && RulesStore.Lookup(once.store, RulesStore.PersonalContextKey) == Some(env.snapshot.prompt.text)
      && twice.store == once.store
      && twice.gitignore == once.gitignore
  {
  }

  /**
   Two successful runs with clean housekeeping, the second at a later timestamp, leave exactly
   one backup of the store: the second run's.
   */
  lemma TwoCleanRunsLeaveOneBackup(env: Env, project: Project, ts2: nat)
    requires env.cloneSucceeds && !InstallFails(env)
    requires env.snapshot.prompt.Present? && Backup.DbFileName in project.dbDir
    requires env.backupIo == Backup.Clean
    ensures var once := RunPipeline(env, project).project;
      var twice := RunPipeline(env.(ts := ts2), once).project;
      Backup.Backups(twice.dbDir) == {Backup.BackupName(ts2)}
  {
  }
}

=== FILE: rules_store.dfy ===
/**
 The rules stage of `ai-pull`: the text of `prompt.md` from the fetched repository is upserted
 into the editor's key-value store under one fixed key, then read back and compared. The SQL
 engine is modelled as a map from key to text; what the engine does besides (refusing, throwing,
 another writer changing the row) is an oracle `DbFault`.
 */
module RulesStore {
  import opened Optional
  import Backup

  /** The one key the stage reads and writes. */
  const PersonalContextKey: string := "aicontext.personalContext"

  type Store = map<string, string>

  function Lookup(store: Store, key: string): Option<string> {
    if key in store then Some(store[key]) else None
  }

  /** The statement that throws in `Throws`. */
  datatype Phase = Select | Write | Reread

  /** How the engine behaves during one upsert. */
  datatype DbFault =
    | Healthy
      /** The SQLite module cannot be loaded. */
    | DriverLoadFails
      /** Opening the database throws. */
    | OpenFails
      /** One statement throws (for instance the database is locked); later statements do not run. */
    | Throws(phase: Phase)
      /** The UPDATE reports zero changed rows and changes nothing. */
    | ZeroRowsChanged
      /** The INSERT reports no row id and changes nothing. */
    | NoInsertId
      /** Another writer sets the key (None: deletes it) between the write and the re-read. */
    | Overwritten(other: Option<string>)

  /** The report of the read-back after a write. */
  datatype Verification = Confirmed | Mismatch | ValueEmpty

  datatype UpsertOutcome =
    | NoDriver
    | OpenFailed
    | DbError
    | NoChange
    | UpdateRejected
    | InsertRejected
    | Updated(check: Verification)
    | Inserted(check: Verification)

  datatype Upsert = Upsert(store: Store, outcome: UpsertOutcome)

  /**
   The read-back check as the code writes it: a value that is an empty string counts as
   missing, because it is falsy.
   */
  function VerifyAsWritten(reread: Option<string>, content: string): (v: Verification)
    ensures v == Confirmed <==> reread == Some(content) && content != ""
    ensures v == ValueEmpty <==> reread.None? || reread == Some("")
  {
    if reread.Some? && reread.value != "" then
      if reread.value == content then Confirmed else Mismatch
    else ValueEmpty
  }

  /** The read-back check as intended: confirmed exactly when the stored value is the content. */
  function Verify(reread: Option<string>, content: string): (v: Verification)
    ensures v == Confirmed <==> reread == Some(content)
    ensures v == ValueEmpty <==> reread.None?
  {
    match reread
    case None => ValueEmpty
    case Some(value) => if value == content then Confirmed else Mismatch
  }

  /** An empty rules document written correctly: the code reports it as a failed write. */
  lemma EmptyDocumentFalseAlarm(store: Store)
    ensures var s := store[PersonalContextKey := ""];
      && Verify(Lookup(s, PersonalContextKey), "") == Confirmed
      && VerifyAsWritten(Lookup(s, PersonalContextKey), "") == ValueEmpty
  {
  }

  /** Which read-back check an upsert runs: the code's, or the corrected one. */
  datatype ReadBackCheck = AsWritten | AsIntended

  function ReadBack(mode: ReadBackCheck, reread: Option<string>, content: string): Verification {
    match mode
    case AsWritten => VerifyAsWritten(reread, content)
    case AsIntended => Verify(reread, content)
  }

  /** The fault happens before the stored value is read. */
  predicate FailsBeforeSelect(fault: DbFault) {
    fault.DriverLoadFails? || fault.OpenFails? || fault == Throws(Select)
  }

  /**
   Upserts `content` under the fixed key, then reads it back with the check `mode`. The run
   itself uses `AsWritten`; `AsIntended` is the corrected stage.
   */
  function UpsertRules(store: Store, content: string, fault: DbFault, mode: ReadBackCheck): (r: Upsert)
    ensures r.store - {PersonalContextKey} == store - {PersonalContextKey}
    ensures r.store == store
         || r.store == store[PersonalContextKey := content]
         || (fault.Overwritten? && r.store == Overwrite(store, fault.other))
    ensures !FailsBeforeSelect(fault) && Lookup(store, PersonalContextKey) == Some(content) ==>
      r == Upsert(store, NoChange)
    ensures r.outcome.Updated? ==> PersonalContextKey in store && store[PersonalContextKey] != content
    ensures r.outcome.Inserted? ==> PersonalContextKey !in store
    ensures (r.outcome.Updated? || r.outcome.Inserted?) ==>
      (r.outcome.check == Confirmed <==>
         Lookup(r.store, PersonalContextKey) == Some(content) && (mode.AsIntended? || content != ""))
    ensures (r.outcome.Updated? || r.outcome.Inserted?) && mode.AsWritten? && content == "" ==>
      r.outcome.check != Confirmed
    ensures ((r.outcome.Updated? || r.outcome.Inserted?) && mode.AsWritten?
             && Lookup(r.store, PersonalContextKey) == Some("")) ==>
      r.outcome.check == ValueEmpty
    ensures FailsBeforeSelect(fault) || fault == Throws(Write) ==> r.store == store
    ensures fault.DriverLoadFails? ==> r.outcome == NoDriver
    ensures fault.OpenFails? ==> r.outcome == OpenFailed
    ensures fault.ZeroRowsChanged? && PersonalContextKey in store ==> r.store == store
    ensures fault.NoInsertId? && PersonalContextKey !in store ==> r.store == store
    ensures fault == Throws(Reread) && Lookup(store, PersonalContextKey) != Some(content) ==>
      r == Upsert(store[PersonalContextKey := content], DbError)
    ensures r.outcome == NoChange ==> r.store == store && Lookup(store, PersonalContextKey) == Some(content)
    ensures r.outcome in {NoDriver, OpenFailed, UpdateRejected, InsertRejected} ==> r.store == store
    ensures r.outcome == DbError && fault != Throws(Reread) ==> r.store == store
    ensures fault == Healthy && PersonalContextKey !in store ==> r.outcome.Inserted?
    ensures fault == Healthy && PersonalContextKey in store && store[PersonalContextKey] != content ==>
      r.outcome.Updated?
    ensures fault == Healthy ==>
      && r.store == store[PersonalContextKey := content]
      && (r.outcome == NoChange || r.outcome.Updated? || r.outcome.Inserted?)
      && (r.outcome.Updated? || r.outcome.Inserted? ==>
            r.outcome.check == (if mode.AsWritten? && content == "" then ValueEmpty else Confirmed))
  {
    var key := PersonalContextKey;
    if fault.DriverLoadFails? then Upsert(store, NoDriver)
    else if fault.OpenFails? then Upsert(store, OpenFailed)
    else if fault == Throws(Select) then Upsert(store, DbError)
    else if key in store && store[key] == content then Upsert(store, NoChange)
    else if fault == Throws(Write) then Upsert(store, DbError)
    else if key in store && fault.ZeroRowsChanged? then Upsert(store, UpdateRejected)
    else if key !in store && fault.NoInsertId? then Upsert(store, InsertRejected)
    else
      var written := store[key := content];
      var seen := if fault.Overwritten? then Overwrite(store, fault.other) else written;
      if fault == Throws(Reread) then Upsert(seen, DbError)
      else
        var check := ReadBack(mode, Lookup(seen, key), content);
        Upsert(seen, if key in store then Updated(check) else Inserted(check))
  }

  /** The store after another writer set (or deleted) the key. */
  function Overwrite(store: Store, other: Option<string>): (s: Store)
    ensures s - {PersonalContextKey} == store - {PersonalContextKey}
    ensures Lookup(s, PersonalContextKey) == other
  {
    match other
    case Some(v) => store[PersonalContextKey := v]
    case None => store - {PersonalContextKey}
  }

  /** After a healthy upsert, upserting the same content again changes nothing. */
  lemma UpsertIdempotent(store: Store, content: string, fault: DbFault, mode: ReadBackCheck)
    requires !FailsBeforeSelect(fault)
    ensures var once := UpsertRules(store, content, Healthy, mode).store;
      UpsertRules(once, content, fault, mode) == Upsert(once, NoChange)
  {
  }

  /** The rules document in the fetched repository. */
  datatype PromptFile = Missing | Unreadable | Present(text: string)

  datatype RulesOutcome =
    | NoPrompt
    | PromptReadFailed
    | NoStore
    | Stored(upsert: UpsertOutcome)

  datatype RulesRun = RulesRun(dbDir: set<string>, store: Store, outcome: RulesOutcome)

  /**
   The whole rules stage: read the document, find the store file, take the backup, upsert.
   `dbDir` lists the store's directory; the store exists when its file is listed there.
   */
  function RulesStage(prompt: PromptFile, dbDir: set<string>, store: Store, ts: nat,
                      backupIo: Backup.BackupIo, fault: DbFault): (r: RulesRun)
    ensures r.store - {PersonalContextKey} == store - {PersonalContextKey}
    ensures (Backup.DbFileName in r.dbDir) == (Backup.DbFileName in dbDir)
    ensures forall f :: !Backup.IsBackup(f) ==> (f in r.dbDir <==> f in dbDir)
    ensures !prompt.Present? ==> r.dbDir == dbDir && r.store == store
    ensures Backup.DbFileName !in dbDir ==> r.dbDir == dbDir && r.store == store
    ensures prompt.Present? && Backup.DbFileName in dbDir && fault == Healthy ==>
      Lookup(r.store, PersonalContextKey) == Some(prompt.text)
    ensures (prompt.Present? && Backup.DbFileName in dbDir && fault == Healthy
             && r.outcome.Stored? && (r.outcome.upsert.Updated? || r.outcome.upsert.Inserted?)) ==>
      r.outcome.upsert.check == (if prompt.text == "" then ValueEmpty else Confirmed)
    ensures prompt.Present? && Backup.DbFileName in dbDir ==>
      r.outcome.Stored? && r.dbDir == Backup.Housekeep(dbDir, ts, backupIo)
    ensures prompt.Present? && Backup.DbFileName in dbDir && backupIo == Backup.Clean ==>
      Backup.Backups(r.dbDir) == {Backup.BackupName(ts)}
    ensures FailsBeforeSelect(fault) || fault == Throws(Write) ==> r.store == store
    ensures (r.outcome.Stored?
             && r.outcome.upsert in {NoDriver, OpenFailed, NoChange, UpdateRejected, InsertRejected}) ==>
      r.store == store
    ensures r.outcome == Stored(NoChange) ==> prompt.Present? && Lookup(store, PersonalContextKey) == Some(prompt.text)
    ensures (prompt.Present? && Backup.DbFileName in dbDir && fault == Healthy
             && PersonalContextKey !in store) ==>
      r.outcome.Stored? && r.outcome.upsert.Inserted?
  {
    match prompt
    case Missing => RulesRun(dbDir, store, NoPrompt)
    case Unreadable => RulesRun(dbDir, store, PromptReadFailed)
    case Present(text) =>
      if Backup.DbFileName !in dbDir then RulesRun(dbDir, store, NoStore)
      else
        Backup.StoreFileKept(dbDir, ts, backupIo);
        Backup.CleanHousekeepingLeavesOneBackup(dbDir, ts);
        var dir' := Backup.Housekeep(dbDir, ts, backupIo);
        var u := UpsertRules(store, text, fault, AsWritten);
        RulesRun(dir', u.store, Stored(u.outcome))
  }
}

=== FILE: tree_copy.dfy ===
/**
 Mirroring a directory tree (`copyFolder`, `copyFolderRecursive`). The source is a tree of nodes; what each file-system call reports is an oracle
 `World` indexed by the entry's path relative to the copied folder (the root is `[]`). The
 target is modelled as the set of (path, content) pairs of the files it holds.
 */
module TreeCopy {
  import opened Optional
  import opened FileCopy

  type Path = seq<string>
  type Bytes = seq<bv8>
  type FileEntry = (Path, Bytes)

  datatype Node = File(name: string, data: Bytes) | Dir(name: string, children: seq<Node>)

  /** The error (if any) each file-system call reports, by path. */
  datatype World = World(
    statError: Path -> Option<ErrorCode>,
    mkdirError: Path -> Option<ErrorCode>,
    readdirError: Path -> Option<ErrorCode>,
    attempt: Path -> nat -> Attempt)

  /** A directory copy: the error its callback receives and the files it wrote. */
  datatype TreeRun = TreeRun(error: Option<CopyError>, copied: set<FileEntry>)

  /** The fan-in over a directory's entries: whether any failed, and what they copied. */
  datatype Fold = Fold(failed: bool, copied: set<FileEntry>)

  /** `readdirSync` on a file. */
  const NotADirectory: ErrorCode := Other("ENOTDIR")

  /** One entry of a directory listing, copied into `dir`. */
  function CopyEntry(w: World, dir: Path, e: Node): (r: Fold)
    decreases e, 0
  {
    var p := dir + [e.name];
    if w.statError(p).Some? then Fold(true, {})
    else
      match e
      case File(_, data) =>
        if CopyFileWithRetry(FileRetries, w.attempt(p)).error.None? then Fold(false, {(p, data)})
        else Fold(true, {})
      case Dir(_, children) =>
        if w.mkdirError(p).Some? then Fold(true, {})
        else
          var sub := CopyFolderRecursive(w, p, children);
          Fold(sub.error.Some?, sub.copied)
  }

  /** All entries are dispatched; the result waits for every one of them. */
  function CopyEntries(w: World, dir: Path, es: seq<Node>): (r: Fold)
    ensures r.failed <==> exists i :: 0 <= i < |es| && CopyEntry(w, dir, es[i]).failed
    ensures forall x :: x in r.copied <==> exists i :: 0 <= i < |es| && x in CopyEntry(w, dir, es[i]).copied
    decreases es, 1
  {
    if |es| == 0 then Fold(false, {})
    else
      var first := CopyEntry(w, dir, es[0]);
      var rest := CopyEntries(w, dir, es[1..]);
      assert forall i :: 1 <= i < |es| ==> es[1..][i - 1] == es[i];
      Fold(first.failed || rest.failed, first.copied + rest.copied)
  }

  /** `copyFolderRecursive` on the existing source directory `dir` whose listing is `children`. */
  function CopyFolderRecursive(w: World, dir: Path, children: seq<Node>): (r: TreeRun)
    ensures w.readdirError(dir).Some? ==> r == TreeRun(Some(Io(w.readdirError(dir).value)), {})
    ensures w.readdirError(dir).None? && |children| == 0 ==> r == TreeRun(None, {})
    ensures w.readdirError(dir).None? ==>
      (r.error.Some? <==> exists i :: 0 <= i < |children| && CopyEntry(w, dir, children[i]).failed)
    ensures w.readdirError(dir).None? && r.error.Some? ==> r.error == Some(PartialCopy)
    decreases children, 2
  {
    match w.readdirError(dir)
    case Some(code) => TreeRun(Some(Io(code)), {})
    case None =>
      if |children| == 0 then TreeRun(None, {})
      else
        var fold := CopyEntries(w, dir, children);
        TreeRun(if fold.failed then Some(PartialCopy) else None, fold.copied)
  }

  /**
   `copyFolder`: `src` is what exists at the source path. The target root is created first
   (`mkdirError([])`), then the source is listed.
   */
  function CopyFolder(w: World, src: Option<Node>): (r: TreeRun)
    ensures src.None? ==> r == TreeRun(Some(SourceMissing), {})
    ensures src.Some? && w.mkdirError([]).Some? ==> r == TreeRun(Some(Io(w.mkdirError([]).value)), {})
    ensures src.Some? && src.value.File? ==> r.error.Some? && r.copied == {}
    ensures src.Some? && src.value.Dir? && w.mkdirError([]).None? ==> r == CopyFolderRecursive(w, [], src.value.children)
  {
    match src
    case None => TreeRun(Some(SourceMissing), {})
    case Some(root) =>
      match w.mkdirError([])
      case Some(code) => TreeRun(Some(Io(code)), {})
      case None =>
        match root
        case File(_, _) => TreeRun(Some(Io(NotADirectory)), {})
        case Dir(_, children) => CopyFolderRecursive(w, [], children)
  }

  // A reference description of the source tree, independent of the copy.

  /** Every entry below `dir`, at any depth, with its path. */
  ghost function Entries(dir: Path, es: seq<Node>): set<(Path, Node)>
    decreases es, 1
  {
    if |es| == 0 then {} else EntriesOf(dir, es[0]) + Entries(dir, es[1..])
  }

  ghost function EntriesOf(dir: Path, e: Node): set<(Path, Node)>
    decreases e, 0
  {
    var p := dir + [e.name];
    match e
    case File(_, _) => {(p, e)}
    case Dir(_, children) => {(p, e)} + Entries(p, children)
  }

  /** Every file below `dir`, at any depth, with its path and content. */
  ghost function Files(dir: Path, es: seq<Node>): set<FileEntry>
    decreases es, 1
  {
    if |es| == 0 then {} else FilesOf(dir, es[0]) + Files(dir, es[1..])
  }

  ghost function FilesOf(dir: Path, e: Node): set<FileEntry>
    decreases e, 0
  {
    var p := dir + [e.name];
    match e
    case File(_, data) => {(p, data)}
    case Dir(_, children) => Files(p, children)
  }

  /** The calls made for one entry all succeed. */
  ghost predicate EntrySound(w: World, p: Path, e: Node) {
    && w.statError(p).None?
    && match e
       case File(_, _) => CopyFileWithRetry(FileRetries, w.attempt(p)).error.None?
       case Dir(_, _) => w.mkdirError(p).None? && w.readdirError(p).None?
  }

  ghost predicate AllSound(w: World, entries: set<(Path, Node)>) {
    forall x :: x in entries ==> EntrySound(w, x.0, x.1)
  }

  lemma {:induction false} EntryCopy(w: World, dir: Path, e: Node)
    ensures !CopyEntry(w, dir, e).failed <==> AllSound(w, EntriesOf(dir, e))
    ensures CopyEntry(w, dir, e).copied <= FilesOf(dir, e)
    ensures !CopyEntry(w, dir, e).failed ==> CopyEntry(w, dir, e).copied == FilesOf(dir, e)
    decreases e, 0
  {
    var p := dir + [e.name];
    match e
    case File(_, _) =>
    case Dir(_, children) =>
      FolderCopy(w, p, children);
  }

  lemma {:induction false} EntriesCopy(w: World, dir: Path, es: seq<Node>)
    ensures !CopyEntries(w, dir, es).failed <==> AllSound(w, Entries(dir, es))
    ensures CopyEntries(w, dir, es).copied <= Files(dir, es)
    ensures !CopyEntries(w, dir, es).failed ==> CopyEntries(w, dir, es).copied == Files(dir, es)
    decreases es, 1
  {
    if |es| > 0 {
      EntryCopy(w, dir, es[0]);
      EntriesCopy(w, dir, es[1..]);
    }
  }

  /**
   A directory copy reports no error exactly when listing it and every call for every entry
   below it succeed; it only ever writes source files to their own paths, and when it reports
   no error it has written all of them.
   */
  lemma {:induction false} FolderCopy(w: World, dir: Path, children: seq<Node>)
    ensures var r := CopyFolderRecursive(w, dir, children);
      && (r.error.None? <==> w.readdirError(dir).None? && AllSound(w, Entries(dir, children)))
      && r.copied <= Files(dir, children)
      && (r.error.None? ==> r.copied == Files(dir, children))
    decreases children, 2
  {
    if w.readdirError(dir).None? && |children| > 0 {
      EntriesCopy(w, dir, children);
    }
  }

  /** An empty source folder copies without error and writes nothing. */
  lemma EmptyFolderCopies(w: World, name: string)
    requires w.mkdirError([]).None? && w.readdirError([]).None?
    ensures CopyFolder(w, Some(Dir(name, []))) == TreeRun(None, {})
  {
  }

  function PathsOf(files: set<FileEntry>): set<Path> {
    set e | e in files :: e.0
  }

  /** Files written over a folder: each replaces whatever was at its path. */
  function Overlay(base: set<FileEntry>, top: set<FileEntry>): (r: set<FileEntry>)
    ensures top <= r
    ensures forall e :: e in r && e !in top ==> e in base && e.0 !in PathsOf(top)
    ensures forall e :: e in base && e.0 !in PathsOf(top) ==> e in r
    ensures base == {} ==> r == top
  {
    top + set e | e in base && e.0 !in PathsOf(top)
  }
}
